=== FILE: README.md ===
# cargo build-dependencies, modelled in Dafny

`cargo build-dependencies` builds every direct dependency of a Cargo package
on its own, pinned to the version in `Cargo.lock`, and exits with failure when
any of those builds fails. This project models its two parts:

- **the resolver** (`src/package/mod.rs`): it reads the names of the manifest's
  `dependencies` table, or of `workspace.dependencies` when the top-level key is
  absent. It then scans the lockfile's `package` array into a name-to-version
  map, keeping only the declared names. The parsed TOML document is a tagged
  tree (`Toml.Value`: table, array, string, other). Every lookup is defensive:
  a missing or wrong-shaped entry gives an empty result or `""`.
- **the driver** (`main` and its helpers in `src/main.rs`): it settles the
  profile from `--release`/`--profile` and defaults the target. It removes the
  `--exclude`d names, refuses an empty map, and then builds each package as
  `cargo build -p name:version --profile P [--target=T]`. The exit statuses are
  folded into the process exit, either tolerating failures (`--ignore-errors`)
  or stopping at the first one.

Modules, in dependency order:

| file | module | models |
|---|---|---|
| wrappers.dfy | `Wrappers` | `Option` and a `Result` used in place of panics |
| toml.dfy | `Toml` | the `toml::Value` tree, `Value::get`, `get_string_field` |
| package.dfy | `Package` | `get_dependencies` and the functions it calls |
| decimal.dfy | `Decimal` | the `{}` text of an exit code |
| command.dfy | `Command` | the package selector, `build_package`'s arguments, `execute_command`'s classification |
| options.dfy | `Options` | the flags, the panics of `main`, profile/target resolution, exclusions |
| driver.dfy | `Driver` | the pre-build steps of `main`, the build loop as a state machine, the exit |
| scenarios.dfy | `Scenarios` | concrete runs over a two-dependency workspace |

The build subprocess is an oracle `seq<string> -> Launch`. It maps an argument
vector to `Launched(Exited(code))`, `Launched(Signaled)`, `SpawnFailed(error)` or
`WaitFailed(error)`, where `error` is the `Debug` text of the `io::Error`. A
status is a success exactly when it is `Exited(0)`, which is what
`ExitStatus::success` means. Every `panic!` of `main`, and the `expect`s on
spawning and waiting for a build, become `Panicked(reason)`; the `expect`s that
read the two files are left out with the file reading. `HashMap` iteration order is an input: `Run` takes the walk
order as a sequence, and requires that it lists the planned map's keys exactly
once.

Three behaviours of the code are easy to miss, and the model keeps them:
- The build selector is `name:version` (`format!("{}:{}", ..)`, src/main.rs:75).
- `workspace.dependencies` is read only when the top-level `dependencies` key
  is absent (`or_else`, src/package/mod.rs:32-36). A present but empty table, or
  a present non-table value, gives no names (`Package.TomlDependencies`,
  `Package.EmptyTopLevelTableHidesWorkspace`).
- A build process that cannot be spawned or waited for panics even under
  `--ignore-errors`: the `expect`s at src/main.rs:120 and 122 sit outside the
  report closure (`Driver.Halts`, `Driver.TolerantLoopContinues` only covers
  launched processes).

## Model

| member | source | states |
|---|---|---|
| Toml.StringField | src/package/mod.rs:64-66 | a string field reads as its text; anything else (missing, non-string) reads as "" — a non-empty result always comes from a string field |
| Package.TomlDependencies | src/package/mod.rs:31-44 | reading entries with `Toml.Get`, which finds an entry only in a table holding the key: the names are the keys of the top-level `dependencies` table when it is a table; a present non-table `dependencies` gives no names and no fallback; only when the key is absent are the keys of a `workspace.dependencies` table used; any non-empty result came from one of those two tables |
| Package.EmptyTopLevelTableHidesWorkspace | src/package/mod.rs:32-36 | an empty top-level `dependencies` table still takes precedence over `workspace.dependencies` |
| Package.Collect | src/package/mod.rs:46-62 | collecting records only adds keys, and every added key is a dependency |
| Package.GetPackages | src/package/mod.rs:46-62 | every resolved name is a declared dependency |
| Package.CollectKeys | src/package/mod.rs:47-61 | a name ends up in the collected map iff it was already there or it is a dependency that some table record carries |
| Package.CollectLastWins | src/package/mod.rs:47-61 | the collected version of a dependency is that of the last record carrying it |
| Package.GetPackagesKeys | src/package/mod.rs:46-62 | a name is resolved iff it is a dependency and some table record of the `package` array carries it; records naming anything else are dropped |
| Package.GetPackagesLastWins | src/package/mod.rs:46-62 | when several records carry the same dependency, the map holds the version of the last one |
| Package.GetPackagesKeysOrderFree | src/package/mod.rs:46-62 | for any permutation of the records, the set of resolved names is the same |
| Package.CollectAppend | src/package/mod.rs:47-61 | collecting a concatenation is collecting the second part on top of the first |
| Package.NonTableRecordSkipped | src/package/mod.rs:49-60 | an array element that is not a table changes nothing, wherever it stands |
| Package.MissingFieldsReadEmpty | src/package/mod.rs:49-61 | a record without string `name`/`version` fields is read with `""` for both, wherever it stands, and the records after it are still collected |
| Package.LockDependencies | src/package/mod.rs:23-29 | a lockfile whose `package` entry is missing or not an array resolves nothing; resolved names are dependencies |
| Package.GetDependencies | src/package/mod.rs:18-21 | every resolved name is declared in the manifest (the exact key set and versions are the two lemmas below) |
| Package.GetDependenciesKeys | src/package/mod.rs:18-29 | a name is resolved iff the manifest declares it, the lockfile has a `package` array, and some table record of that array carries the name |
| Package.GetDependenciesLastWins | src/package/mod.rs:18-29 | a declared name carried by several records of the `package` array resolves to the version of the last of them |
| Package.ResolvesDeclaredDependencies | src/package/mod.rs:18-21 | manifest {foo, bar} with lockfile foo 1.0.0, bar 2.0.0, baz 9.9.9 resolves to {foo: 1.0.0, bar: 2.0.0} |
| Decimal.FromNat | src/main.rs:126 | the text of a natural number is non-empty, all digits, with no leading zero |
| Decimal.FromInt | src/main.rs:126 | the text of an integer starts with '-' exactly when it is negative |
| Decimal.IntRoundTrip | src/main.rs:126 | reading the text of an exit code back yields the code |
| Decimal.FromIntInjective | src/main.rs:126 | different codes have different texts |
| Command.PackageId | src/main.rs:75 | the selector is the name, one colon, then the version; for a colon-free name that colon is the selector's first |
| Command.SplitPackageId | src/main.rs:75 | the name read back from a selector contains no colon |
| Command.PackageIdRoundTrip | src/main.rs:75 | for a name without a colon, name and version are recovered from `name:version` |
| Command.PackageIdInjective | src/main.rs:75 | two entries with colon-free names get the same selector only if they are the same entry |
| Command.BuildArgs | src/main.rs:99-105 | the arguments always start with `build -p <pkg> --profile <profile>` and have a sixth argument exactly when the target is non-empty |
| Command.BuildArgsRoundTrip | src/main.rs:99-105 | package, profile and target are recovered from the argument vector, so `--target=` carries the target exactly when it is non-empty |
| Command.SucceededIffUnbuilt | src/main.rs:71-88 | definition: `ExitStatus::success` holds for an exit with code 0 and never for a signal, so `ExitStatus::default()` (`Command.Unbuilt`) is the one successful status |
| Command.Diagnostic | src/main.rs:124-129 | the report callback is invoked exactly when the status is not a success |
| Command.DiagnosticInjective | src/main.rs:124-129 | the report identifies the failing status: the exit code when there is one, otherwise the signal text |
| Options.ResolveProfile | src/main.rs:30-46 | `--release` together with `--profile` is an error; otherwise the explicit profile, else "release" for `--release`, else "dev" |
| Options.ReleaseIsProfileRelease | src/main.rs:31-45 | `--release` alone resolves exactly as `--profile release` alone |
| Options.ResolveTarget | src/main.rs:47-50 | definition: the target is the given triple, or "" when none is given |
| Options.Exclude | src/main.rs:56-63 | a successful exclusion only removes keys and keeps every remaining version; a failure names one of the excluded names |
| Options.ExcludeSucceedsIff | src/main.rs:56-63 | excluding succeeds iff the names are all resolved and pairwise distinct, and then yields exactly the map minus those names |
| Options.ExcludeReportsFirstRejected | src/main.rs:56-63 | the error names the first exclusion that is not in the map at its turn |
| Options.ExcludeTwiceFails | src/main.rs:56-63 | excluding the same name twice is an error |
| Options.Panic.Message | src/main.rs:34-122 | the exclusion panic starts with the excluded name; a failed build panics with its report; a failed spawn or wait ends with `: ` and the error's `Debug` text, as `expect` prints it |
| Options.MessageIdentifiesPanic | src/main.rs:34-122 | apart from a failed build's report, the printed panic text determines the panic: for an exclusion the refused name, for a failed spawn or wait the error text |
| Driver.Prepare | src/main.rs:30-67 | conflicting profile flags fail first; an exclusion error happens iff an excluded name is unresolved or repeated; the only pre-build failures are the profile conflict, an exclusion error and an empty map; a plan holds exactly the resolved map minus the exclusions, is never empty, and carries the resolved profile, target and tolerance |
| Driver.PrepareSucceedsIff | src/main.rs:30-67 | a plan is made iff the profile flags do not conflict, the exclusions are distinct resolved names, and something is left to build |
| Driver.Invocation | src/main.rs:73-79 | the build of an entry carries its `name:version` selector and the plan's profile and target, all recoverable from the argument vector |
| Driver.InvocationNamesEntry | src/main.rs:73-79 | the name and version of an entry with a colon-free name are read back from the selector of its build |
| Driver.Invocations | src/main.rs:73-79 | the loop builds exactly one invocation per walked entry |
| Driver.InvocationsDistinct | src/main.rs:73-79 | different entries with colon-free names are built by different invocations |
| Driver.Step | src/main.rs:74-131 | one more build is counted as run; it stops the run iff it could not run or failed without tolerance, with the matching panic; only a tolerated failure replaces the kept status and appends its report |
| Driver.BuildAll | src/main.rs:73-84 | the loop runs at most one build per entry and does nothing once stopped |
| Driver.FirstHalt | src/main.rs:73-84 | the index of the first build that stops the run, every earlier one not stopping it |
| Driver.LastFailure | src/main.rs:71-84 | the success status iff no build failed; otherwise the status of a failed build after which none failed |
| Driver.Reported | src/main.rs:107-113 | no messages iff no build failed, at most one per build |
| Driver.BuildAllAttempted | src/main.rs:73-84 | the loop runs the builds up to and including the first one that stops it, or all of them when none does |
| Driver.BuildAllHalted | src/main.rs:73-132 | the loop stops with the panic of the first build that stops it, and without a panic when none does |
| Driver.BuildAllStatus | src/main.rs:71-84 | the kept status is the last failing status among the builds before the stop, or the initial success |
| Driver.BuildAllReports | src/main.rs:107-113 | when tolerant, every failed build before the stop is reported, in order; otherwise nothing is reported |
| Driver.Classify | src/main.rs:88-92 | the exit is a panic iff the loop stopped, and `SUCCESS` iff it did not and the kept status is a success |
| Driver.Run | src/main.rs:30-92 | a pre-build error panics with no build attempted; at most one build per entry; a build-failure panic happens only without `--ignore-errors` |
| Driver.IntolerantLoopStops | src/main.rs:73-113 | without tolerance, the loop stops at the first unsuccessful build, after running it, with its panic and no report |
| Driver.TolerantLoopContinues | src/main.rs:73-113 | with tolerance and every process run, the loop runs every build, reports every failure in order, and fails iff some build failed |
| Driver.LoopSucceedsIff | src/main.rs:81-92 | the loop exits with `SUCCESS` iff every build ran and exited with code 0 |
| Driver.RunSucceedsIffEveryPackageBuilds | src/main.rs:56-92 | the run succeeds iff the pre-build checks pass and the build of every package of the plan succeeds |
| Driver.RunSuccessOrderFree | src/main.rs:73 | whether the run succeeds does not depend on the order the map is walked in |
| Driver.IntolerantRunStopsAtFirstFailure | src/main.rs:107-113 | without `--ignore-errors` the first unsuccessful build is the last one attempted, the run panics with its report, and nothing else is reported |
| Driver.TolerantRunAttemptsEveryBuild | src/main.rs:107-113 | with `--ignore-errors` and every process run, all builds are attempted, each failure is reported in order, and the run fails iff some build failed |
| Driver.CompletedRunBuildsEveryPackage | src/main.rs:73-84 | a run that did not panic attempted exactly the plan's builds, one for every package |
| Scenarios.ExcludingBarPlansFooOnly | src/main.rs:56-67 | `--exclude bar` on {foo, bar} leaves the plan {foo: 1.0.0} with profile "dev" and no target |
| Scenarios.ExcludesBar | src/main.rs:56-63 | removing `bar` from {foo, bar} leaves {foo: 1.0.0} |
| Scenarios.ExcludingBarTrace | src/main.rs:56-92 | with `--exclude bar` and every build succeeding, the run builds the plan's single build, reports nothing and succeeds |
| Scenarios.ExcludingBarBuildsFooOnly | src/main.rs:56-92 | ... and the run builds `foo:1.0.0` alone |
| Scenarios.ExcludingUnknownNameBuildsNothing | src/main.rs:56-63 | `--exclude qux` panics before any build |
| Scenarios.ConflictingFlagsBuildNothing | src/main.rs:31-34 | `--release --profile custom` panics before any build |
| Scenarios.Reports101 | src/main.rs:126 | exit code 101 is reported as "Exited with status code: 101" |
| Scenarios.IntolerantFailureAborts | src/main.rs:107-113 | when foo fails with code 101 and errors are not tolerated, bar is never built and the run panics with foo's report |
| Scenarios.TolerantFailureContinues | src/main.rs:107-113 | with `--ignore-errors`, both are built, foo's failure is reported, and the run exits with `FAILURE` |

## Left out

- Reading and parsing `Cargo.toml` and `Cargo.lock` (`get_toml`, src/package/mod.rs:10-16, and its `expect`s at src/main.rs:52-53). These are file I/O and TOML text parsing. The parsed trees are inputs.
- Command-line parsing with clap (src/main.rs:15-28). The parsed flags are the `Options.Flags` record, and the ignored positional `build-dependencies` argument is not modelled.
- Spawning, environment propagation and waiting (src/main.rs:117-122). They become the outcome oracle. Failure to spawn and failure to wait are oracle outcomes that panic in either mode, as the `expect`s do.
- `println!`/`eprintln!` output. The tolerated reports are kept as a sequence of messages, and the panic text is `Options.Panic.Message`.
- The process exit code of a panic (101) and the signal number of a signalled build. Neither affects the logic.
- `Decimal.FromInt`: exit codes are unbounded integers, not `i32`. Every code a process can return fits, so the 32-bit width changes nothing.
- Options.MessageIdentifiesPanic: requires the error text of a failed spawn or wait not to end in a backquote. The `Debug` text of an `io::Error` always ends in `}` or `)`, but the model takes the text as an arbitrary string.
- Interference between builds. The oracle gives each build's outcome from its argument vector alone, so the outcome is taken to be independent of the builds run before it, although the real builds share one target directory. `Driver.RunSuccessOrderFree` and the order-free reading of `Driver.RunSucceedsIffEveryPackageBuilds` rest on this.
- `HashMap` iteration order. It is the `order` argument of `Driver.Run`, required to list the map's keys exactly once.
- The test module (src/package/mod.rs:68-69). Its file is not part of this model.

=== FILE: command.dfy ===
/** One build invocation (`build_package` and `execute_command` in src/main.rs):
    the package identifier, the argument vector, and how the exit status of the
    build is classified and reported. Spawning and waiting are not modelled; the
    build's outcome is an input. */
module Command {
  import opened Wrappers
  import Decimal

  /** A finished process: it exited with a code, or a signal terminated it. */
  datatype ExitStatus = Exited(code: int) | Signaled {
    /** `ExitStatus::success`: exited, with code zero. */
    predicate Succeeded()
    {
      this == Exited(0)
    }
  }

  /** What happened when the build was started: it ran to an exit status, or the
      process could not be spawned, or waiting for it failed. A failure carries
      the `Debug` text of its `io::Error`. */
  datatype Launch = Launched(status: ExitStatus) | SpawnFailed(error: string) | WaitFailed(error: string)

  /** `ExitStatus::default()`, the status before any build ran: a success. */
  const Unbuilt: ExitStatus := Exited(0)

  /** Termination by a signal is never a success, an exit is one exactly when its
      code is zero, and so the default status is the one successful status. */
  lemma SucceededIffUnbuilt(status: ExitStatus)
    ensures status.Succeeded() <==> status == Unbuilt
    ensures status.Signaled? ==> !status.Succeeded()
    ensures status.Exited? ==> (status.Succeeded() <==> status.code == 0)
  {
  }

  /* ---------------------------------------------------------------------------
     Package identifier
     --------------------------------------------------------------------------- */

  /** The package selector handed to the build: `name:version`. */
  function PackageId(name: string, version: string): (id: string)
    ensures |id| == |name| + 1 + |version|
    ensures id[..|name|] == name && id[|name|] == ':' && id[|name| + 1..] == version
    ensures ':' !in name ==> forall j :: 0 <= j < |name| ==> id[j] != ':'
  {
    name + ":" + version
  }

  /** Splits a package selector at its first colon. */
  function SplitPackageId(id: string): (r: Option<(string, string)>)
    ensures r.Some? ==> ':' !in r.value.0
    decreases |id|
  {
    if |id| == 0 then None
    else if id[0] == ':' then Some(("", id[1..]))
    else match SplitPackageId(id[1..])
      case Some((name, version)) => Some(([id[0]] + name, version))
      case None => None
  }

  /** A name without a colon (as every package name is) and its version can be
      read back from the selector. */
  lemma {:induction false} PackageIdRoundTrip(name: string, version: string)
    requires ':' !in name
    ensures SplitPackageId(PackageId(name, version)) == Some((name, version))
    decreases |name|
  {
    var id := PackageId(name, version);
    if |name| > 0 {
      assert id[0] == name[0] && name[0] != ':';
      assert id[1..] == PackageId(name[1..], version);
      PackageIdRoundTrip(name[1..], version);
      assert [name[0]] + name[1..] == name;
    } else {
      assert id[0] == ':' && id[1..] == version;
    }
  }

  /** So two different entries of the resolved map are never built under the same selector. */
  lemma PackageIdInjective(name: string, version: string, name': string, version': string)
    requires ':' !in name && ':' !in name'
    requires PackageId(name, version) == PackageId(name', version')
    ensures name == name' && version == version'
  {
    PackageIdRoundTrip(name, version);
    PackageIdRoundTrip(name', version');
  }

  /* ---------------------------------------------------------------------------
     Argument vector
     --------------------------------------------------------------------------- */

  const TargetFlag: string := "--target="

  /** The arguments of `cargo`: build the package with the profile, and restrict
      it to the target triple only when one was given. */
  function BuildArgs(pkg: string, profile: string, target: string): (args: seq<string>)
    ensures |args| == if target == "" then 5 else 6
    ensures args[..5] == ["build", "-p", pkg, "--profile", profile]
  {
    var args := ["build", "-p", pkg, "--profile", profile];
    if target != "" then args + [TargetFlag + target] else args
  }

  /** Reads package, profile and target back from an argument vector. */
  function ParseBuildArgs(args: seq<string>): Option<(string, string, string)>
  {
    if |args| < 5 || args[0] != "build" || args[1] != "-p" || args[3] != "--profile" then None
    else if |args| == 5 then Some((args[2], args[4], ""))
    else if |args| == 6 && |args[5]| > |TargetFlag| && args[5][..|TargetFlag|] == TargetFlag then
      Some((args[2], args[4], args[5][|TargetFlag|..]))
    else None
  }

  /** The argument vector carries package, profile and target without loss: a
      `--target=` argument is present exactly when the target is not empty. */
  lemma BuildArgsRoundTrip(pkg: string, profile: string, target: string)
    ensures ParseBuildArgs(BuildArgs(pkg, profile, target)) == Some((pkg, profile, target))
  {
  }

  /* ---------------------------------------------------------------------------
     Classification and report
     --------------------------------------------------------------------------- */

  /** The message `execute_command` hands to its report callback; the callback is
      called only for a status that is not a success. */
  function Diagnostic(status: ExitStatus): (message: Option<string>)
    ensures message.None? <==> status.Succeeded()
  {
    if status.Succeeded() then None
    else match status
      case Exited(code) => Some("Exited with status code: " + Decimal.FromInt(code))
      case Signaled => Some("Process terminated by signal")
  }

  /** A report of an exit code and a report of a signal already differ in their first letter. */
  lemma DiagnosticLead(status: ExitStatus)
    ensures Diagnostic(status).Some? ==> Diagnostic(status).value[0] == if status.Exited? then 'E' else 'P'
  {
  }

  /** Distinct failing statuses produce distinct messages: the report tells the
      exit code when there is one, and says "terminated by signal" otherwise. */
  lemma DiagnosticInjective(a: ExitStatus, b: ExitStatus)
    requires !a.Succeeded()
    requires Diagnostic(a) == Diagnostic(b)
    ensures a == b
  {
    var prefix := "Exited with status code: ";
    DiagnosticLead(a);
    DiagnosticLead(b);
    if a.Exited? && b.Exited? {
      var text := Diagnostic(a).value;
      assert text == prefix + Decimal.FromInt(a.code) == prefix + Decimal.FromInt(b.code);
      assert text[|prefix|..] == Decimal.FromInt(a.code);
      assert text[|prefix|..] == Decimal.FromInt(b.code);
      Decimal.FromIntInjective(a.code, b.code);
    }
  }
}

=== FILE: decimal.dfy ===
/** Decimal text of an integer, as Rust's `{}` formatting writes an exit code:
    an optional minus sign, then digits with no leading zero. */
module Decimal {

  predicate IsDigit(c: char)
  {
    '0' <= c <= '9'
  }

  function DigitChar(d: nat): (c: char)
    requires d < 10
    ensures IsDigit(c)
  {
    ('0' as int + d) as char
  }

  function DigitValue(c: char): nat
  {
    if IsDigit(c) then c as int - '0' as int else 0
  }

  /** The decimal digits of `n`, most significant first. */
  function FromNat(n: nat): (s: string)
    ensures |s| > 0
    ensures forall i :: 0 <= i < |s| ==> IsDigit(s[i])
    ensures |s| > 1 ==> s[0] != '0'
    ensures n > 0 ==> s[0] != '0'
    decreases n
  {
    if n < 10 then [DigitChar(n)] else FromNat(n / 10) + [DigitChar(n % 10)]
  }

  /** The text `{}` produces for a (signed) integer. */
  function FromInt(i: int): (s: string)
    ensures |s| > 0
    ensures s[0] == '-' <==> i < 0
  {
    if i < 0 then "-" + FromNat(-i) else FromNat(i)
  }

  /** Reads a string of digits back as a number. */
  function ToNat(s: string): nat
    decreases |s|
  {
    if |s| == 0 then 0 else 10 * ToNat(s[..|s| - 1]) + DigitValue(s[|s| - 1])
  }

  /** Reads a decimal text, with an optional leading minus sign, back as an integer. */
  function ToInt(s: string): int
  {
    if |s| > 0 && s[0] == '-' then -(ToNat(s[1..]) as int) else ToNat(s)
  }

  lemma {:induction false} NatRoundTrip(n: nat)
    ensures ToNat(FromNat(n)) == n
    decreases n
  {
    if n >= 10 {
      var s := FromNat(n);
      assert s[..|s| - 1] == FromNat(n / 10);
      NatRoundTrip(n / 10);
    }
  }

  /** Reading the text back gives the number that was written. */
  lemma IntRoundTrip(i: int)
    ensures ToInt(FromInt(i)) == i
  {
    if i < 0 {
      assert FromInt(i)[1..] == FromNat(-i);
      NatRoundTrip(-i);
    } else {
      NatRoundTrip(i);
    }
  }

  /** Different integers are written differently. */
  lemma FromIntInjective(a: int, b: int)
    requires FromInt(a) == FromInt(b)
    ensures a == b
  {
    IntRoundTrip(a);
    IntRoundTrip(b);
  }
}

=== FILE: driver.dfy ===
/** `main` of src/main.rs after flag parsing: settle the configuration, resolve
    and filter the dependencies, then build them one at a time and fold the exit
    statuses into the process's exit. The build of one argument vector is an
    oracle; the order in which the resolved map is walked is an input. */
module Driver {
  import opened Wrappers
  import Toml
  import Package
  import opened Command
  import opened Options

  /** Everything the build loop needs, once no pre-build error stopped the run. */
  datatype Plan = Plan(packages: Package.Packages, profile: string, target: string, tolerant: bool)

  /** The pre-build part of `main`: profile and target, resolution, exclusions,
      and the refusal of an empty map, in that order. */
  function Prepare(flags: Flags, manifest: Toml.Value, lock: Toml.Value): (r: Result<Plan, Panic>)
    // Conflicting profile flags are refused before anything else is looked at.
    ensures flags.release && flags.profile.Some? ==> r == Failure(ConflictingProfileFlags)
    // Exclusions fail exactly when one is unresolved or repeated.
    ensures !(flags.release && flags.profile.Some?) ==>
              (r.Failure? && r.error.UnknownExclusion?
               <==> !(Distinct(flags.exclude)
                      && forall i :: 0 <= i < |flags.exclude| ==>
                           flags.exclude[i] in Package.GetDependencies(manifest, lock)))
    // A plan builds the resolved map minus the exclusions, and is never empty.
    ensures r.Success? ==> r.value.packages == Package.GetDependencies(manifest, lock) - Listed(flags.exclude)
    ensures r.Success? ==> r.value.packages != map[]
    ensures r == Failure(NoDependencies) ==> Package.GetDependencies(manifest, lock).Keys <= Listed(flags.exclude)
    ensures r.Success? ==> Success(r.value.profile) == ResolveProfile(flags.release, flags.profile)
    ensures r.Success? ==> r.value.target == ResolveTarget(flags.target)
    ensures r.Success? ==> r.value.tolerant == flags.ignoreErrors
    // No other panic happens before the builds.
    ensures r.Failure? ==> r.error.ConflictingProfileFlags? || r.error.UnknownExclusion? || r.error == NoDependencies
  {
    match ResolveProfile(flags.release, flags.profile)
    case Failure(e) => Failure(e)
    case Success(profile) =>
      var target := ResolveTarget(flags.target);
      var resolved := Package.GetDependencies(manifest, lock);
      ExcludeSucceedsIff(resolved, flags.exclude);
      match Exclude(resolved, flags.exclude)
      case Failure(e) => Failure(e)
      case Success(remaining) =>
        if remaining == map[] then Failure(NoDependencies)
        else Success(Plan(remaining, profile, target, flags.ignoreErrors))
  }

  /** A plan is made exactly when none of the pre-build checks refuses the run:
      the profile flags do not conflict, every exclusion names a distinct resolved
      dependency, and some dependency is left to build. */
  lemma PrepareSucceedsIff(flags: Flags, manifest: Toml.Value, lock: Toml.Value)
    ensures Prepare(flags, manifest, lock).Success?
            <==> && !(flags.release && flags.profile.Some?)
                 && Distinct(flags.exclude)
                 && (forall i :: 0 <= i < |flags.exclude| ==>
                       flags.exclude[i] in Package.GetDependencies(manifest, lock))
                 && Package.GetDependencies(manifest, lock) - Listed(flags.exclude) != map[]
  {
    ExcludeSucceedsIff(Package.GetDependencies(manifest, lock), flags.exclude);
  }

  /** The arguments of the build of package `name` of the plan. */
  function Invocation(plan: Plan, name: string): (args: seq<string>)
    requires name in plan.packages
    // The build carries the entry's selector and the plan's profile and target.
    ensures ParseBuildArgs(args) == Some((PackageId(name, plan.packages[name]), plan.profile, plan.target))
  {
    var id := PackageId(name, plan.packages[name]);
    BuildArgsRoundTrip(id, plan.profile, plan.target);
    BuildArgs(id, plan.profile, plan.target)
  }

  /** A colon-free name and its version can be read back from the selector its build carries. */
  lemma InvocationNamesEntry(plan: Plan, name: string)
    requires name in plan.packages
    requires ':' !in name
    ensures SplitPackageId(Invocation(plan, name)[2]) == Some((name, plan.packages[name]))
  {
    PackageIdRoundTrip(name, plan.packages[name]);
  }

  /** The builds of the plan, in the order the map is walked. */
  function Invocations(plan: Plan, order: seq<string>): (r: seq<seq<string>>)
    requires forall i :: 0 <= i < |order| ==> order[i] in plan.packages
    ensures |r| == |order|
  {
    seq(|order|, i requires 0 <= i < |order| => Invocation(plan, order[i]))
  }

  /** A list of builds is the walk's exactly when it holds one build per entry,
      the i-th being the build of the i-th entry. */
  lemma InvocationsFollowOrder(plan: Plan, order: seq<string>, builds: seq<seq<string>>)
    requires forall i :: 0 <= i < |order| ==> order[i] in plan.packages
    ensures Invocations(plan, order) == builds
            <==> |builds| == |order| && forall i :: 0 <= i < |order| ==> builds[i] == Invocation(plan, order[i])
  {
  }

  /** Different entries of the map, when their names have no colon (as no package
      name does), are built by different invocations. */
  lemma InvocationsDistinct(plan: Plan, order: seq<string>)
    requires forall i :: 0 <= i < |order| ==> order[i] in plan.packages && ':' !in order[i]
    ensures forall i, j :: 0 <= i < |order| && 0 <= j < |order| && order[i] != order[j]
              ==> Invocations(plan, order)[i] != Invocations(plan, order)[j]
  {
    var r := Invocations(plan, order);
    InvocationsFollowOrder(plan, order, r);
    forall i, j | 0 <= i < |order| && 0 <= j < |order| && order[i] != order[j]
      ensures r[i] != r[j]
    {
      InvocationNamesEntry(plan, order[i]);
      InvocationNamesEntry(plan, order[j]);
      assert SplitPackageId(r[i][2]) == Some((order[i], plan.packages[order[i]]));
      assert SplitPackageId(r[j][2]) == Some((order[j], plan.packages[order[j]]));
    }
  }

  /* ---------------------------------------------------------------------------
     The build loop
     --------------------------------------------------------------------------- */

  /** The state of the loop: the number of builds run so far, the messages reported
      without stopping, the last failing status seen (the success status while
      there was none), and the panic that stopped the loop, if any. */
  datatype Progress = Progress(
    attempted: nat,
    reports: seq<string>,
    status: ExitStatus,
    halted: Option<Panic>)

  const Start: Progress := Progress(0, [], Unbuilt, None)

  /** A build ran and did not succeed. */
  predicate FailedBuild(outcome: Launch)
  {
    outcome.Launched? && !outcome.status.Succeeded()
  }

  /** A build outcome that stops the run: the process could not be run at all,
      or it failed while errors are not tolerated. */
  predicate Halts(outcome: Launch, tolerant: bool)
  {
    !outcome.Launched? || (!tolerant && FailedBuild(outcome))
  }

  /** Why a halting outcome stops the run. */
  function HaltReason(outcome: Launch, tolerant: bool): Panic
    requires Halts(outcome, tolerant)
  {
    match outcome
    case SpawnFailed(error) => SpawnError(error)
    case WaitFailed(error) => WaitError(error)
    case Launched(status) => BuildFailed(Diagnostic(status).value)
  }

  /** One turn of the loop: run a build; a failure is reported and becomes the
      last failing status when errors are tolerated, and stops the run otherwise. */
  function Step(p: Progress, outcome: Launch, tolerant: bool): (q: Progress)
    requires p.halted.None?
    ensures q.attempted == p.attempted + 1
    ensures q.halted.Some? <==> Halts(outcome, tolerant)
    ensures q.halted.Some? ==> q.halted.value == HaltReason(outcome, tolerant)
    ensures q.status == if FailedBuild(outcome) && !Halts(outcome, tolerant) then outcome.status else p.status
    ensures q.reports == p.reports + if FailedBuild(outcome) && tolerant then [Diagnostic(outcome.status).value] else []
  {
    var attempted := p.attempted + 1;
    match outcome
    case SpawnFailed(error) => p.(attempted := attempted, halted := Some(SpawnError(error)))
    case WaitFailed(error) => p.(attempted := attempted, halted := Some(WaitError(error)))
    case Launched(status) =>
      match Diagnostic(status)
      case None => p.(attempted := attempted)
      case Some(message) =>
        if tolerant then p.(attempted := attempted, reports := p.reports + [message], status := status)
        else p.(attempted := attempted, halted := Some(BuildFailed(message)))
  }

  /** Runs the builds in order until one halts the run. */
  function BuildAll(builds: seq<seq<string>>, oracle: seq<string> -> Launch, tolerant: bool, p: Progress): (r: Progress)
    ensures p.attempted <= r.attempted <= p.attempted + |builds|
    ensures p.halted.Some? ==> r == p
    decreases |builds|
  {
    if |builds| == 0 || p.halted.Some? then p
    else BuildAll(builds[1..], oracle, tolerant, Step(p, oracle(builds[0]), tolerant))
  }

  /* ---------------------------------------------------------------------------
     Reference definitions of what the loop computes
     --------------------------------------------------------------------------- */

  /** The index of the first build that halts the run, or the number of builds. */
  function FirstHalt(builds: seq<seq<string>>, oracle: seq<string> -> Launch, tolerant: bool): (k: nat)
    ensures k <= |builds|
    ensures forall i :: 0 <= i < k ==> !Halts(oracle(builds[i]), tolerant)
    ensures k < |builds| ==> Halts(oracle(builds[k]), tolerant)
    decreases |builds|
  {
    if |builds| == 0 then 0
    else if Halts(oracle(builds[0]), tolerant) then 0
    else 1 + FirstHalt(builds[1..], oracle, tolerant)
  }

  /** The status of the last failed build, or the success status when none failed. */
  function LastFailure(builds: seq<seq<string>>, oracle: seq<string> -> Launch): (s: ExitStatus)
    ensures s.Succeeded() <==> forall i :: 0 <= i < |builds| ==> !FailedBuild(oracle(builds[i]))
    ensures !s.Succeeded() ==>
              exists i :: 0 <= i < |builds| && oracle(builds[i]) == Launched(s)
                          && forall j :: i < j < |builds| ==> !FailedBuild(oracle(builds[j]))
    decreases |builds|
  {
    if |builds| == 0 then Unbuilt
    else
      var rest := LastFailure(builds[1..], oracle);
      if !rest.Succeeded() then
        ghost var i :| 0 <= i < |builds[1..]| && oracle(builds[1..][i]) == Launched(rest)
                       && forall j :: i < j < |builds[1..]| ==> !FailedBuild(oracle(builds[1..][j]));
        assert oracle(builds[i + 1]) == Launched(rest);
        assert forall j :: i + 1 < j < |builds| ==> builds[j] == builds[1..][j - 1];
        rest
      else if FailedBuild(oracle(builds[0])) then oracle(builds[0]).status
      else rest
  }

  /** The messages of the failed builds, in order. */
  function Reported(builds: seq<seq<string>>, oracle: seq<string> -> Launch): (messages: seq<string>)
    ensures |messages| <= |builds|
    ensures messages == [] <==> forall i :: 0 <= i < |builds| ==> !FailedBuild(oracle(builds[i]))
    decreases |builds|
  {
    if |builds| == 0 then []
    else
      var rest := Reported(builds[1..], oracle);
      var outcome := oracle(builds[0]);
      if FailedBuild(outcome) then [Diagnostic(outcome.status).value] + rest else rest
  }

  /** The number of builds the loop attempts when build `k` is the first to halt it. */
  function AttemptCount(builds: seq<seq<string>>, k: nat): (n: nat)
    requires k <= |builds|
    ensures n <= |builds|
  {
    if k < |builds| then k + 1 else k
  }

  /** How many builds the loop runs, from any running state: those up to and
      including the first one that halts it, or all of them if none does. */
  lemma {:induction false} BuildAllAttempted(builds: seq<seq<string>>, oracle: seq<string> -> Launch, tolerant: bool, p: Progress)
    requires p.halted.None?
    ensures BuildAll(builds, oracle, tolerant, p).attempted
            == p.attempted + AttemptCount(builds, FirstHalt(builds, oracle, tolerant))
    decreases |builds|
  {
    if |builds| > 0 {
      var q := Step(p, oracle(builds[0]), tolerant);
      assert BuildAll(builds, oracle, tolerant, p) == BuildAll(builds[1..], oracle, tolerant, q);
      if !Halts(oracle(builds[0]), tolerant) {
        BuildAllAttempted(builds[1..], oracle, tolerant, q);
      }
    }
  }

  /** How the loop ends, from any running state: with the panic of the first
      build that halts it, or without one when none does. */
  lemma {:induction false} BuildAllHalted(builds: seq<seq<string>>, oracle: seq<string> -> Launch, tolerant: bool, p: Progress)
    requires p.halted.None?
    ensures var k := FirstHalt(builds, oracle, tolerant);
            BuildAll(builds, oracle, tolerant, p).halted
            == if k < |builds| then Some(HaltReason(oracle(builds[k]), tolerant)) else None
    decreases |builds|
  {
    if |builds| > 0 {
      var q := Step(p, oracle(builds[0]), tolerant);
      assert BuildAll(builds, oracle, tolerant, p) == BuildAll(builds[1..], oracle, tolerant, q);
      if Halts(oracle(builds[0]), tolerant) {
        assert FirstHalt(builds, oracle, tolerant) == 0;
      } else {
        var rest := builds[1..];
        var k' := FirstHalt(rest, oracle, tolerant);
        assert FirstHalt(builds, oracle, tolerant) == k' + 1;
        BuildAllHalted(rest, oracle, tolerant, q);
        assert k' < |rest| ==> builds[k' + 1] == rest[k'];
      }
    }
  }

  /** The builds before the first halting one are the first of them followed by
      the corresponding builds of the rest. */
  lemma PrefixSplits(builds: seq<seq<string>>, k: nat)
    requires 0 < k <= |builds|
    ensures builds[..k][0] == builds[0]
    ensures builds[..k][1..] == builds[1..][..k - 1]
  {
  }

  /** The status the loop ends with: the last failing status among the builds
      before the first halting one, or the earlier status when none failed. */
  lemma {:induction false} BuildAllStatus(builds: seq<seq<string>>, oracle: seq<string> -> Launch, tolerant: bool, p: Progress)
    requires p.halted.None?
    ensures var k := FirstHalt(builds, oracle, tolerant);
            var last := LastFailure(builds[..k], oracle);
            BuildAll(builds, oracle, tolerant, p).status == if last.Succeeded() then p.status else last
    decreases |builds|
  {
    if |builds| > 0 {
      var outcome := oracle(builds[0]);
      var q := Step(p, outcome, tolerant);
      assert BuildAll(builds, oracle, tolerant, p) == BuildAll(builds[1..], oracle, tolerant, q);
      if Halts(outcome, tolerant) {
        assert FirstHalt(builds, oracle, tolerant) == 0;
        assert builds[..0] == [];
      } else {
        var rest := builds[1..];
        var k := FirstHalt(builds, oracle, tolerant);
        assert k == FirstHalt(rest, oracle, tolerant) + 1;
        BuildAllStatus(rest, oracle, tolerant, q);
        PrefixSplits(builds, k);
      }
    }
  }

  /** What the loop reports without stopping: when errors are tolerated, the
      message of every failed build before the first halting one, in order;
      otherwise nothing. */
  lemma BuildAllReports(builds: seq<seq<string>>, oracle: seq<string> -> Launch, tolerant: bool, p: Progress)
    requires p.halted.None?
    ensures var k := FirstHalt(builds, oracle, tolerant);
            BuildAll(builds, oracle, tolerant, p).reports
              == p.reports + (if tolerant then Reported(builds[..k], oracle) else [])
  {
    if tolerant {
      TolerantReports(builds, oracle, p);
    } else {
      IntolerantReports(builds, oracle, p);
    }
  }

  /** With errors tolerated, the loop appends the report of every failed build
      before the first halting one. */
  lemma {:induction false} TolerantReports(builds: seq<seq<string>>, oracle: seq<string> -> Launch, p: Progress)
    requires p.halted.None?
    ensures BuildAll(builds, oracle, true, p).reports
            == p.reports + Reported(builds[..FirstHalt(builds, oracle, true)], oracle)
    decreases |builds|
  {
    if |builds| > 0 {
      var outcome := oracle(builds[0]);
      var q := Step(p, outcome, true);
      var k := FirstHalt(builds, oracle, true);
      assert BuildAll(builds, oracle, true, p) == BuildAll(builds[1..], oracle, true, q);
      if Halts(outcome, true) {
        assert k == 0 && builds[..0] == [];
        assert q.reports == p.reports;
      } else {
        var rest := builds[1..];
        var message := if FailedBuild(outcome) then [Diagnostic(outcome.status).value] else [];
        var later := Reported(rest[..k - 1], oracle);
        assert k == FirstHalt(rest, oracle, true) + 1;
        assert BuildAll(rest, oracle, true, q).reports == q.reports + later by {
          TolerantReports(rest, oracle, q);
        }
        assert Reported(builds[..k], oracle) == message + later by {
          ReportedSplits(builds, oracle, k);
        }
        assert q.reports == p.reports + message;
        AppendAssociates(p.reports, message, later);
      }
    }
  }

  /** Without tolerance, the loop reports nothing. */
  lemma {:induction false} IntolerantReports(builds: seq<seq<string>>, oracle: seq<string> -> Launch, p: Progress)
    requires p.halted.None?
    ensures BuildAll(builds, oracle, false, p).reports == p.reports
    decreases |builds|
  {
    if |builds| > 0 {
      var q := Step(p, oracle(builds[0]), false);
      assert q.reports == p.reports;
      if q.halted.None? {
        IntolerantReports(builds[1..], oracle, q);
      }
    }
  }

  lemma AppendAssociates<T>(a: seq<T>, b: seq<T>, c: seq<T>)
    ensures a + b + c == a + (b + c)
  {
  }

  /** The messages of a non-empty prefix: that of its first build, then those of the rest. */
  lemma ReportedSplits(builds: seq<seq<string>>, oracle: seq<string> -> Launch, k: nat)
    requires 0 < k <= |builds|
    ensures Reported(builds[..k], oracle)
            == (if FailedBuild(oracle(builds[0])) then [Diagnostic(oracle(builds[0]).status).value] else [])
               + Reported(builds[1..][..k - 1], oracle)
  {
    PrefixSplits(builds, k);
  }

  /* ---------------------------------------------------------------------------
     The run
     --------------------------------------------------------------------------- */

  /** How the process ends: `ExitCode::SUCCESS`, `ExitCode::FAILURE`, or a panic. */
  datatype Exit = ExitSuccess | ExitFailure | Panicked(reason: Panic)

  /** The exit of a finished loop: success only when no failing status was kept. */
  function Classify(p: Progress): (e: Exit)
    ensures e.Panicked? <==> p.halted.Some?
    ensures e == ExitSuccess <==> p.halted.None? && p.status.Succeeded()
  {
    match p.halted
    case Some(reason) => Panicked(reason)
    case None => if p.status.Succeeded() then ExitSuccess else ExitFailure
  }

  /** What a run leaves behind: its exit, the builds it attempted, and the
      messages it reported without stopping. */
  datatype RunResult = RunResult(exit: Exit, attempted: seq<seq<string>>, reports: seq<string>)

  /** `order` lists every entry of the map exactly once. */
  ghost predicate Enumerates(order: seq<string>, packages: Package.Packages)
  {
    && (forall i :: 0 <= i < |order| ==> order[i] in packages)
    && (forall name :: name in packages ==> name in order)
    && (forall i, j :: 0 <= i < j < |order| ==> order[i] != order[j])
  }

  /** The walk order enumerates the planned map, whenever there is a plan. */
  ghost predicate OrderFits(flags: Flags, manifest: Toml.Value, lock: Toml.Value, order: seq<string>)
  {
    Prepare(flags, manifest, lock).Success? ==> Enumerates(order, Prepare(flags, manifest, lock).value.packages)
  }

  /** `main`, from parsed flags and parsed manifest and lockfile. */
  function Run(flags: Flags, manifest: Toml.Value, lock: Toml.Value, order: seq<string>,
               oracle: seq<string> -> Launch): (r: RunResult)
    requires OrderFits(flags, manifest, lock, order)
    ensures Prepare(flags, manifest, lock).Failure? ==>
              r == RunResult(Panicked(Prepare(flags, manifest, lock).error), [], [])
    ensures |r.attempted| <= |order|
    ensures r.exit.Panicked? && r.exit.reason.BuildFailed? ==> !flags.ignoreErrors
  {
    match Prepare(flags, manifest, lock)
    case Failure(reason) => RunResult(Panicked(reason), [], [])
    case Success(plan) =>
      var builds := Invocations(plan, order);
      var p := BuildAll(builds, oracle, plan.tolerant, Start);
      BuildAllAttempted(builds, oracle, plan.tolerant, Start);
      BuildAllHalted(builds, oracle, plan.tolerant, Start);
      RunResult(Classify(p), builds[..p.attempted], p.reports)
  }

  /** Past the pre-build checks, the run is the loop over the plan's builds. */
  lemma RunFollowsPlan(flags: Flags, manifest: Toml.Value, lock: Toml.Value,
                       order: seq<string>, oracle: seq<string> -> Launch)
    requires OrderFits(flags, manifest, lock, order)
    requires Prepare(flags, manifest, lock).Success?
    ensures var plan := Prepare(flags, manifest, lock).value;
            var builds := Invocations(plan, order);
            var p := BuildAll(builds, oracle, plan.tolerant, Start);
            Run(flags, manifest, lock, order, oracle) == RunResult(Classify(p), builds[..p.attempted], p.reports)
  {
  }

  /** The same, for a known plan and its known builds. */
  lemma RunOfPlan(flags: Flags, manifest: Toml.Value, lock: Toml.Value, order: seq<string>,
                  oracle: seq<string> -> Launch, plan: Plan, builds: seq<seq<string>>)
    requires Prepare(flags, manifest, lock) == Success(plan)
    requires Enumerates(order, plan.packages)
    requires Invocations(plan, order) == builds
    ensures OrderFits(flags, manifest, lock, order)
    ensures var p := BuildAll(builds, oracle, plan.tolerant, Start);
            Run(flags, manifest, lock, order, oracle) == RunResult(Classify(p), builds[..p.attempted], p.reports)
  {
    RunFollowsPlan(flags, manifest, lock, order, oracle);
  }

  /* ---------------------------------------------------------------------------
     Properties of the run
     --------------------------------------------------------------------------- */

  /** The loop ends in `ExitCode::SUCCESS` exactly when every build ran and succeeded. */
  lemma LoopSucceedsIff(builds: seq<seq<string>>, oracle: seq<string> -> Launch, tolerant: bool)
    ensures Classify(BuildAll(builds, oracle, tolerant, Start)) == ExitSuccess
            <==> forall i :: 0 <= i < |builds| ==> oracle(builds[i]) == Launched(Unbuilt)
  {
    BuildAllHalted(builds, oracle, tolerant, Start);
    BuildAllStatus(builds, oracle, tolerant, Start);
    var k := FirstHalt(builds, oracle, tolerant);
    if forall i :: 0 <= i < |builds| ==> oracle(builds[i]) == Launched(Unbuilt) {
      if k < |builds| {
        assert false;
      }
      assert builds[..k] == builds;
    }
    if Classify(BuildAll(builds, oracle, tolerant, Start)) == ExitSuccess {
      assert k == |builds|;
      assert builds[..k] == builds;
      forall i | 0 <= i < |builds|
        ensures oracle(builds[i]) == Launched(Unbuilt)
      {
        assert !Halts(oracle(builds[i]), tolerant);
        assert !FailedBuild(oracle(builds[i]));
      }
    }
  }

  /** Without tolerance, the loop stops at the first build that does not succeed:
      it is the last one attempted, its report is the panic, nothing else is reported. */
  lemma IntolerantLoopStops(builds: seq<seq<string>>, oracle: seq<string> -> Launch, k: nat)
    requires k < |builds|
    requires forall i :: 0 <= i < k ==> oracle(builds[i]) == Launched(Unbuilt)
    requires oracle(builds[k]) != Launched(Unbuilt)
    ensures var r := BuildAll(builds, oracle, false, Start);
            && r.attempted == k + 1
            && Classify(r) == Panicked(HaltReason(oracle(builds[k]), false))
            && r.reports == []
  {
    var h := FirstHalt(builds, oracle, false);
    assert h == k by {
      assert Halts(oracle(builds[k]), false);
      if h > k {
        assert false;
      }
      if h < k {
        assert false;
      }
    }
    var r := BuildAll(builds, oracle, false, Start);
    assert r.attempted == k + 1 by {
      BuildAllAttempted(builds, oracle, false, Start);
    }
    assert r.halted == Some(HaltReason(oracle(builds[k]), false)) by {
      BuildAllHalted(builds, oracle, false, Start);
    }
    assert r.reports == [] by {
      IntolerantReports(builds, oracle, Start);
    }
  }

  /** With tolerance and every build process run, the loop attempts every build,
      reports every failure in order, and fails exactly when some build failed. */
  lemma TolerantLoopContinues(builds: seq<seq<string>>, oracle: seq<string> -> Launch)
    requires forall i :: 0 <= i < |builds| ==> oracle(builds[i]).Launched?
    ensures var r := BuildAll(builds, oracle, true, Start);
            && r.attempted == |builds| && builds[..r.attempted] == builds
            && r.reports == Reported(builds, oracle)
            && (Classify(r) == ExitFailure <==> exists i :: 0 <= i < |builds| && FailedBuild(oracle(builds[i])))
            && (Classify(r) == ExitSuccess <==> !exists i :: 0 <= i < |builds| && FailedBuild(oracle(builds[i])))
  {
    var r := BuildAll(builds, oracle, true, Start);
    assert FirstHalt(builds, oracle, true) == |builds| by {
      var h := FirstHalt(builds, oracle, true);
      if h < |builds| {
        assert false;
      }
    }
    assert builds[..|builds|] == builds;
    BuildAllAttempted(builds, oracle, true, Start);
    BuildAllHalted(builds, oracle, true, Start);
    BuildAllReports(builds, oracle, true, Start);
    assert r.status == LastFailure(builds, oracle) by {
      BuildAllStatus(builds, oracle, true, Start);
    }
  }

  /** The run exits with success exactly when it got past the pre-build checks and
      the build of every package of the plan succeeded. */
  lemma RunSucceedsIffEveryPackageBuilds(flags: Flags, manifest: Toml.Value, lock: Toml.Value,
                                         order: seq<string>, oracle: seq<string> -> Launch)
    requires OrderFits(flags, manifest, lock, order)
    ensures Run(flags, manifest, lock, order, oracle).exit == ExitSuccess
            <==> && Prepare(flags, manifest, lock).Success?
                 && var plan := Prepare(flags, manifest, lock).value;
                    forall name :: name in plan.packages ==> oracle(Invocation(plan, name)) == Launched(Unbuilt)
  {
    if Prepare(flags, manifest, lock).Success? {
      var plan := Prepare(flags, manifest, lock).value;
      var builds := Invocations(plan, order);
      RunFollowsPlan(flags, manifest, lock, order, oracle);
      LoopSucceedsIff(builds, oracle, plan.tolerant);
      if forall i :: 0 <= i < |builds| ==> oracle(builds[i]) == Launched(Unbuilt) {
        forall name | name in plan.packages
          ensures oracle(Invocation(plan, name)) == Launched(Unbuilt)
        {
          var i :| 0 <= i < |order| && order[i] == name;
          assert builds[i] == Invocation(plan, name);
        }
      }
      if forall name :: name in plan.packages ==> oracle(Invocation(plan, name)) == Launched(Unbuilt) {
        forall i | 0 <= i < |builds|
          ensures oracle(builds[i]) == Launched(Unbuilt)
        {
          assert builds[i] == Invocation(plan, order[i]);
        }
      }
    }
  }

  /** Whether the run succeeds does not depend on the order the map is walked in. */
  lemma RunSuccessOrderFree(flags: Flags, manifest: Toml.Value, lock: Toml.Value,
                            order: seq<string>, order': seq<string>, oracle: seq<string> -> Launch)
    requires OrderFits(flags, manifest, lock, order)
    requires OrderFits(flags, manifest, lock, order')
    ensures (Run(flags, manifest, lock, order, oracle).exit == ExitSuccess)
            == (Run(flags, manifest, lock, order', oracle).exit == ExitSuccess)
  {
    RunSucceedsIffEveryPackageBuilds(flags, manifest, lock, order, oracle);
    RunSucceedsIffEveryPackageBuilds(flags, manifest, lock, order', oracle);
  }

  /** When errors are not tolerated, the first build that does not succeed stops the
      run with a panic: it is the last build attempted and nothing was reported. */
  lemma IntolerantRunStopsAtFirstFailure(flags: Flags, manifest: Toml.Value, lock: Toml.Value,
                                         order: seq<string>, oracle: seq<string> -> Launch, k: nat)
    requires OrderFits(flags, manifest, lock, order)
    requires Prepare(flags, manifest, lock).Success?
    requires !flags.ignoreErrors
    requires k < |order|
    requires forall i :: 0 <= i < k ==>
               oracle(Invocation(Prepare(flags, manifest, lock).value, order[i])) == Launched(Unbuilt)
    requires oracle(Invocation(Prepare(flags, manifest, lock).value, order[k])) != Launched(Unbuilt)
    ensures var plan := Prepare(flags, manifest, lock).value;
            var builds := Invocations(plan, order);
            var r := Run(flags, manifest, lock, order, oracle);
            && r.attempted == builds[..k + 1]
            && r.exit == Panicked(HaltReason(oracle(builds[k]), false))
            && r.reports == []
  {
    var plan := Prepare(flags, manifest, lock).value;
    var builds := Invocations(plan, order);
    RunFollowsPlan(flags, manifest, lock, order, oracle);
    forall i | 0 <= i <= k
      ensures builds[i] == Invocation(plan, order[i])
    {
    }
    IntolerantLoopStops(builds, oracle, k);
  }

  /** When errors are tolerated and every build process ran, every build is
      attempted, every failure is reported in order, and the run fails exactly
      when some build failed. */
  lemma TolerantRunAttemptsEveryBuild(flags: Flags, manifest: Toml.Value, lock: Toml.Value,
                                      order: seq<string>, oracle: seq<string> -> Launch)
    requires OrderFits(flags, manifest, lock, order)
    requires Prepare(flags, manifest, lock).Success?
    requires flags.ignoreErrors
    requires forall i :: 0 <= i < |order| ==>
               oracle(Invocation(Prepare(flags, manifest, lock).value, order[i])).Launched?
    ensures var plan := Prepare(flags, manifest, lock).value;
            var builds := Invocations(plan, order);
            var r := Run(flags, manifest, lock, order, oracle);
            && r.attempted == builds
            && r.reports == Reported(builds, oracle)
            && (r.exit == ExitFailure <==> exists i :: 0 <= i < |builds| && FailedBuild(oracle(builds[i])))
            && (r.exit == ExitSuccess <==> !exists i :: 0 <= i < |builds| && FailedBuild(oracle(builds[i])))
  {
    var plan := Prepare(flags, manifest, lock).value;
    var builds := Invocations(plan, order);
    RunFollowsPlan(flags, manifest, lock, order, oracle);
    TolerantLoopContinues(builds, oracle);
  }

  /** A run that did not panic built the package of every entry of the plan. */
  lemma CompletedRunBuildsEveryPackage(flags: Flags, manifest: Toml.Value, lock: Toml.Value,
                                       order: seq<string>, oracle: seq<string> -> Launch)
    requires OrderFits(flags, manifest, lock, order)
    requires !Run(flags, manifest, lock, order, oracle).exit.Panicked?
    ensures Prepare(flags, manifest, lock).Success?
    ensures var plan := Prepare(flags, manifest, lock).value;
            var r := Run(flags, manifest, lock, order, oracle);
            && r.attempted == Invocations(plan, order)
            && forall name :: name in plan.packages ==> Invocation(plan, name) in r.attempted
  {
    var plan := Prepare(flags, manifest, lock).value;
    var builds := Invocations(plan, order);
    var p := BuildAll(builds, oracle, plan.tolerant, Start);
    RunFollowsPlan(flags, manifest, lock, order, oracle);
    assert p.attempted == |builds| by {
      BuildAllAttempted(builds, oracle, plan.tolerant, Start);
      BuildAllHalted(builds, oracle, plan.tolerant, Start);
    }
    assert builds[..|builds|] == builds;
    forall name | name in plan.packages
      ensures Invocation(plan, name) in builds
    {
      var i :| 0 <= i < |order| && order[i] == name;
      assert builds[i] == Invocation(plan, name);
    }
  }
}

=== FILE: options.dfy ===
/** The run configuration `main` derives from its flags before any build
    (src/main.rs): the effective profile, the target, and the removal of
    excluded packages from the resolved map. Every `panic!` of `main` is an
    error value here. */
module Options {
  import opened Wrappers
  import Package

  /** The flags after command-line parsing. */
  datatype Flags = Flags(
    release: bool,
    profile: Option<string>,
    target: Option<string>,
    ignoreErrors: bool,
    exclude: seq<string>)

  /** The reasons the run stops with a panic. */
  datatype Panic =
    | ConflictingProfileFlags
    | UnknownExclusion(name: string)
    | NoDependencies
    | BuildFailed(message: string)
    | SpawnError(detail: string)
    | WaitError(detail: string)
  {
    /** The text the panic prints; `expect` appends `: ` and the error's
        `Debug` text to its message. */
    function Message(): (m: string)
      ensures UnknownExclusion? ==> |m| > |name| && m[..|name|] == name
      ensures BuildFailed? ==> m == message
      ensures SpawnError? || WaitError? ==> |m| > |detail| && m[|m| - |detail|..] == detail
      ensures SpawnError? || WaitError? ==> |m| >= |detail| + 2 && m[|m| - |detail| - 2..|m| - |detail|] == ": "
    {
      match this
      case ConflictingProfileFlags => ConflictText
      case UnknownExclusion(name) => name + ExclusionSuffix
      case NoDependencies => NoDependenciesText
      case BuildFailed(message) => message
      case SpawnError(detail) => SpawnLead + detail
      case WaitError(detail) => WaitLead + detail
    }

    /** The `Debug` text of an `io::Error` ends in `}` or `)`, never in a
        backquote, as an exclusion panic does. */
    predicate DetailUnquoted()
    {
      (SpawnError? || WaitError?) ==> |detail| == 0 || detail[|detail| - 1] != '`'
    }
  }

  /** The fixed texts of `main`'s panics. */
  const ConflictText: string :=
    "`--release` is short for " + "`--profile release`, you should only specify one of these flags"
  const NoDependenciesText: string := "Can't find dependencies"
  const SpawnLead: string := "Failed to execute process: "
  const WaitLead: string := "Failed to run command: "

  /** The text of an exclusion panic after the excluded name. */
  const ExclusionSuffix: string :=
    " was marked as excluded, but it is not a dependency of the top-level `Cargo.toml`"

  /** Apart from a failed build, which prints its report, the text of a panic
      tells which panic it is, for an exclusion which name was refused, and for
      a process failure which error occurred. */
  lemma MessageIdentifiesPanic(a: Panic, b: Panic)
    requires !a.BuildFailed? && !b.BuildFailed?
    requires a.DetailUnquoted() && b.DetailUnquoted()
    requires a.Message() == b.Message()
    ensures a == b
  {
    var m := a.Message();
    if a.UnknownExclusion? || b.UnknownExclusion? {
      assert m[|m| - 1] == '`' by {
        var e := if a.UnknownExclusion? then a else b;
        assert e.Message() == e.name + ExclusionSuffix;
      }
      EndsInBackquote(a);
      EndsInBackquote(b);
      assert a.Message() == a.name + ExclusionSuffix;
      assert b.Message() == b.name + ExclusionSuffix;
      assert |a.name| == |b.name|;
      assert a.name == m[..|a.name|] == b.name;
    } else {
      MessageLead(a);
      MessageLead(b);
      assert a.SpawnError? == b.SpawnError? && a.WaitError? == b.WaitError?;
      if a.SpawnError? || a.WaitError? {
        assert |a.detail| == |b.detail|;
        assert a.detail == m[|m| - |a.detail|..] == b.detail;
      }
    }
  }

  /** Only an exclusion panic ends in a backquote, among the panics that are
      not a failed build's report. */
  lemma EndsInBackquote(p: Panic)
    requires !p.BuildFailed? && p.DetailUnquoted()
    requires p.Message()[|p.Message()| - 1] == '`'
    ensures p.UnknownExclusion?
  {
  }

  /** The first letters that tell the panics other than an exclusion and a
      failed build apart: `Failed to ` followed by `e` for a failed spawn and by
      `r` for a failed wait; a backquote and `C` for the two fixed texts. */
  lemma MessageLead(p: Panic)
    requires !p.BuildFailed? && !p.UnknownExclusion?
    ensures |p.Message()| > 10
    ensures p.ConflictingProfileFlags? <==> p.Message()[0] == '`'
    ensures p.NoDependencies? <==> p.Message()[0] == 'C'
    ensures p.SpawnError? <==> p.Message()[0] == 'F' && p.Message()[10] == 'e'
    ensures p.WaitError? <==> p.Message()[0] == 'F' && p.Message()[10] == 'r'
    ensures p.SpawnError? ==> |p.Message()| == |SpawnLead| + |p.detail|
    ensures p.WaitError? ==> |p.Message()| == |WaitLead| + |p.detail|
  {
    match p
    case ConflictingProfileFlags =>
      assert ConflictText[0] == '`';
    case NoDependencies =>
      assert NoDependenciesText[0] == 'C';
    case SpawnError(detail) =>
      assert SpawnLead[0] == 'F' && SpawnLead[10] == 'e' && |SpawnLead| > 10;
      assert p.Message() == SpawnLead + detail;
    case WaitError(detail) =>
      assert WaitLead[0] == 'F' && WaitLead[10] == 'r' && |WaitLead| > 10;
      assert p.Message() == WaitLead + detail;
  }

  /* ---------------------------------------------------------------------------
     Profile and target
     --------------------------------------------------------------------------- */

  /** The effective profile: `--release` and `--profile` together are refused;
      otherwise an explicit profile is used as given, `--release` alone selects
      "release", and neither selects "dev". */
  function ResolveProfile(release: bool, profile: Option<string>): (r: Result<string, Panic>)
    ensures r.Failure? <==> release && profile.Some?
    ensures r.Failure? ==> r.error == ConflictingProfileFlags
    ensures r.Success? && profile.Some? ==> r.value == profile.value
    ensures r.Success? && profile.None? ==> r.value == if release then "release" else "dev"
  {
    match profile
    case Some(value) => if release then Failure(ConflictingProfileFlags) else Success(value)
    case None => Success(if release then "release" else "dev")
  }

  /** `--release` is short for `--profile release`. */
  lemma ReleaseIsProfileRelease()
    ensures ResolveProfile(true, None) == ResolveProfile(false, Some("release"))
  {
  }

  /** The target triple, empty when none was given. */
  function ResolveTarget(target: Option<string>): (r: string)
    ensures target.Some? ==> r == target.value
    ensures target.None? ==> r == ""
  {
    match target
    case Some(value) => value
    case None => ""
  }

  /* ---------------------------------------------------------------------------
     Exclusions
     --------------------------------------------------------------------------- */

  /** The names listed, as a set. */
  function Listed(names: seq<string>): set<string>
  {
    set i | 0 <= i < |names| :: names[i]
  }

  ghost predicate Distinct(names: seq<string>)
  {
    forall i, j :: 0 <= i < j < |names| ==> names[i] != names[j]
  }

  /** `names[i]` is no longer in the map by the time it is excluded: it was never
      resolved, or an earlier exclusion already removed it. */
  predicate Rejected(packages: Package.Packages, names: seq<string>, i: int)
    requires 0 <= i < |names|
  {
    names[i] !in packages || names[i] in names[..i]
  }

  /** Removes each excluded name in turn; a name that is not in the map at that
      point is an error. */
  function Exclude(packages: Package.Packages, names: seq<string>): (r: Result<Package.Packages, Panic>)
    ensures r.Success? ==> r.value.Keys <= packages.Keys
    ensures r.Success? ==> forall k :: k in r.value ==> r.value[k] == packages[k]
    ensures r.Failure? ==> exists i :: 0 <= i < |names| && r.error == UnknownExclusion(names[i])
    decreases |names|
  {
    if |names| == 0 then Success(packages)
    else if names[0] !in packages then Failure(UnknownExclusion(names[0]))
    else Exclude(packages - {names[0]}, names[1..])
  }

  /** Excluding succeeds exactly when the excluded names are all resolved and
      none is repeated; it then removes exactly those names and changes nothing else. */
  lemma {:induction false} ExcludeSucceedsIff(packages: Package.Packages, names: seq<string>)
    ensures Exclude(packages, names).Success?
            <==> Distinct(names) && forall i :: 0 <= i < |names| ==> names[i] in packages
    ensures Exclude(packages, names).Success? ==> Exclude(packages, names).value == packages - Listed(names)
    decreases |names|
  {
    if |names| == 0 {
      assert Listed(names) == {};
      assert packages - Listed(names) == packages;
    } else if names[0] !in packages {
    } else {
      var x, rest := names[0], names[1..];
      var smaller := packages - {x};
      ExcludeSucceedsIff(smaller, rest);
      assert Listed(names) == {x} + Listed(rest) by {
        forall n | n in Listed(names) ensures n in {x} + Listed(rest) {
          var i :| 0 <= i < |names| && names[i] == n;
          if i > 0 { assert rest[i - 1] == n; }
        }
        forall n | n in Listed(rest) ensures n in Listed(names) {
          var i :| 0 <= i < |rest| && rest[i] == n;
          assert names[i + 1] == n;
        }
      }
      assert smaller - Listed(rest) == packages - Listed(names);
      if Distinct(names) && forall i :: 0 <= i < |names| ==> names[i] in packages {
        forall i | 0 <= i < |rest| ensures rest[i] in smaller {
          assert names[i + 1] == rest[i] && names[0] != names[i + 1];
        }
        assert Distinct(rest) by {
          forall i, j | 0 <= i < j < |rest| ensures rest[i] != rest[j] {
            assert names[i + 1] != names[j + 1];
          }
        }
      }
      if Distinct(rest) && forall i :: 0 <= i < |rest| ==> rest[i] in smaller {
        forall i | 0 <= i < |names| ensures names[i] in packages {
          if i > 0 { assert rest[i - 1] in smaller; }
        }
        assert Distinct(names) by {
          forall i, j | 0 <= i < j < |names| ensures names[i] != names[j] {
            assert rest[j - 1] in smaller;
            if i > 0 { assert rest[i - 1] != rest[j - 1]; }
          }
        }
      }
    }
  }

  /** A failing exclusion names the first excluded entry that was not in the map
      at its turn; the exclusions before it were all removed. */
  lemma {:induction false} ExcludeReportsFirstRejected(packages: Package.Packages, names: seq<string>, k: int)
    requires 0 <= k < |names|
    requires Rejected(packages, names, k)
    requires forall i :: 0 <= i < k ==> !Rejected(packages, names, i)
    ensures Exclude(packages, names) == Failure(UnknownExclusion(names[k]))
    decreases |names|
  {
    if k > 0 {
      var x, rest := names[0], names[1..];
      assert !Rejected(packages, names, 0);
      var smaller := packages - {x};
      assert rest[..k - 1] == names[1..k];
      assert names[..k] == [x] + rest[..k - 1];
      forall i | 0 <= i < k - 1
        ensures !Rejected(smaller, rest, i)
      {
        assert !Rejected(packages, names, i + 1);
        assert names[..i + 1] == [x] + rest[..i];
      }
      ExcludeReportsFirstRejected(smaller, rest, k - 1);
    }
  }

  /** Excluding the same name twice is an error, even when it was resolved. */
  lemma ExcludeTwiceFails(packages: Package.Packages, name: string)
    ensures Exclude(packages, [name, name]).Failure?
  {
    ExcludeSucceedsIff(packages, [name, name]);
  }
}

=== FILE: package.dfy ===
/** The dependency resolver: which direct dependencies a manifest declares, and
    which exact versions the lockfile pins them to (src/package/mod.rs). */
module Package {
  import opened Wrappers
  import opened Toml

  /** Map from package name to its pinned version. */
  type Packages = map<string, string>

  /* ---------------------------------------------------------------------------
     Manifest side: the names of the direct dependencies
     --------------------------------------------------------------------------- */

  /** The table the names are read from: the top-level `dependencies` entry, or,
      only when that key is absent, `workspace.dependencies`. */
  function DependencyEntry(manifest: Value): Option<Value>
  {
    match Get(manifest, "dependencies")
    case Some(declared) => Some(declared)
    case None =>
      match Get(manifest, "workspace")
      case Some(workspace) => Get(workspace, "dependencies")
      case None => None
  }

  /** `get_toml_dependencies`: the key names of the dependency table. A
      dependency entry that is not a table, or no entry at all, gives no names. */
  function TomlDependencies(manifest: Value): (names: set<string>)
    // A top-level `dependencies` table supplies exactly its keys.
    ensures manifest.Table? && "dependencies" in manifest.entries
            && manifest.entries["dependencies"].Table?
            ==> names == manifest.entries["dependencies"].entries.Keys
    // A top-level `dependencies` of any other shape hides the workspace.
    ensures manifest.Table? && "dependencies" in manifest.entries
            && !manifest.entries["dependencies"].Table?
            ==> names == {}
    // Without a top-level key, `workspace.dependencies` is used when it is a table ...
    ensures !(manifest.Table? && "dependencies" in manifest.entries)
            && manifest.Table? && "workspace" in manifest.entries
            && manifest.entries["workspace"].Table?
            && "dependencies" in manifest.entries["workspace"].entries
            && manifest.entries["workspace"].entries["dependencies"].Table?
            ==> names == manifest.entries["workspace"].entries["dependencies"].entries.Keys
    // ... and otherwise nothing is declared, which is not an error.
    ensures names != {} ==>
              manifest.Table?
              && (("dependencies" in manifest.entries && manifest.entries["dependencies"].Table?)
                  || ("dependencies" !in manifest.entries
                      && "workspace" in manifest.entries
                      && manifest.entries["workspace"].Table?
                      && "dependencies" in manifest.entries["workspace"].entries
                      && manifest.entries["workspace"].entries["dependencies"].Table?))
  {
    match DependencyEntry(manifest)
    case Some(Table(declared)) => declared.Keys
    case _ => {}
  }

  /* ---------------------------------------------------------------------------
     Lockfile side: the records of the `package` array
     --------------------------------------------------------------------------- */

  /** The name a lockfile record carries ("" when it has none). */
  function NameOf(record: Value): string
  {
    StringField(Get(record, "name"))
  }

  /** The version a lockfile record carries ("" when it has none). */
  function VersionOf(record: Value): string
  {
    StringField(Get(record, "version"))
  }

  /** True when `record` is a table whose name field reads as `name`. */
  predicate RecordFor(record: Value, name: string)
  {
    record.Table? && NameOf(record) == name
  }

  /** One step of the `filter_map(..).collect()` of `get_packages`: a table record
      whose name is a dependency inserts (or overwrites) its entry; anything
      else leaves the map as it is. */
  function Insert(acc: Packages, record: Value, deps: set<string>): Packages
  {
    match record
    case Table(_) =>
      if NameOf(record) in deps then acc[NameOf(record) := VersionOf(record)] else acc
    case _ => acc
  }

  /** Inserts the records front to back into `acc`, as collecting an iterator
      into a `HashMap` does. */
  function Collect(acc: Packages, records: seq<Value>, deps: set<string>): (r: Packages)
    ensures acc.Keys <= r.Keys
    ensures r.Keys <= acc.Keys + deps
    decreases |records|
  {
    if |records| == 0 then acc
    else Collect(Insert(acc, records[0], deps), records[1..], deps)
  }

  /** `get_packages`: the name-to-version map of the records naming a dependency. */
  function GetPackages(records: seq<Value>, deps: set<string>): (r: Packages)
    ensures r.Keys <= deps
  {
    Collect(map[], records, deps)
  }

  /** `get_lock_dependencies`: reads the lockfile's `package` array; a missing
      entry, or one that is not an array, resolves nothing. */
  function LockDependencies(lock: Value, deps: set<string>): (r: Packages)
    ensures r.Keys <= deps
    ensures !(lock.Table? && "package" in lock.entries && lock.entries["package"].Array?)
            ==> r == map[]
  {
    match Get(lock, "package")
    case Some(Array(records)) => GetPackages(records, deps)
    case _ => map[]
  }

  /** `get_dependencies`: the direct dependencies of the manifest that the
      lockfile pins, with their versions. */
  function GetDependencies(manifest: Value, lock: Value): (r: Packages)
    ensures r.Keys <= TomlDependencies(manifest)
  {
    LockDependencies(lock, TomlDependencies(manifest))
  }

  /* ---------------------------------------------------------------------------
     Properties of the resolved map
     --------------------------------------------------------------------------- */

  /** Record `i` is the last record of `records` that carries `name`. */
  ghost predicate LastRecordFor(records: seq<Value>, name: string, i: int)
  {
    && 0 <= i < |records|
    && RecordFor(records[i], name)
    && forall j :: i < j < |records| ==> !RecordFor(records[j], name)
  }

  /** A name that no record carries keeps whatever `acc` said about it. */
  lemma {:induction false} CollectUntouched(acc: Packages, records: seq<Value>, deps: set<string>, name: string)
    requires forall j :: 0 <= j < |records| ==> !RecordFor(records[j], name)
    ensures name in Collect(acc, records, deps) <==> name in acc
    ensures name in acc ==> Collect(acc, records, deps)[name] == acc[name]
    decreases |records|
  {
    if |records| > 0 {
      var next := Insert(acc, records[0], deps);
      assert !RecordFor(records[0], name);
      assert name in next <==> name in acc;
      assert name in acc ==> next[name] == acc[name];
      forall j | 0 <= j < |records[1..]|
        ensures !RecordFor(records[1..][j], name)
      {
        assert records[1..][j] == records[j + 1];
      }
      CollectUntouched(next, records[1..], deps, name);
    }
  }

  /** The keys `Collect` adds are exactly the dependencies some record names. */
  lemma {:induction false} CollectKeys(acc: Packages, records: seq<Value>, deps: set<string>, name: string)
    ensures name in Collect(acc, records, deps)
            <==> name in acc
                 || (name in deps && exists i :: 0 <= i < |records| && RecordFor(records[i], name))
    decreases |records|
  {
    if |records| > 0 {
      var next := Insert(acc, records[0], deps);
      CollectKeys(next, records[1..], deps, name);
      if exists i :: 0 <= i < |records| && RecordFor(records[i], name) {
        var i :| 0 <= i < |records| && RecordFor(records[i], name);
        if i > 0 {
          assert RecordFor(records[1..][i - 1], name);
        }
      }
      if exists i :: 0 <= i < |records[1..]| && RecordFor(records[1..][i], name) {
        var i :| 0 <= i < |records[1..]| && RecordFor(records[1..][i], name);
        assert RecordFor(records[i + 1], name);
      }
    }
  }

  /** The version `Collect` keeps for a dependency is the one of the last record naming it. */
  lemma {:induction false} CollectLastWins(acc: Packages, records: seq<Value>, deps: set<string>, name: string, i: int)
    requires name in deps
    requires LastRecordFor(records, name, i)
    ensures name in Collect(acc, records, deps)
    ensures Collect(acc, records, deps)[name] == VersionOf(records[i])
    decreases |records|
  {
    var next := Insert(acc, records[0], deps);
    if i == 0 {
      assert name in next && next[name] == VersionOf(records[0]);
      forall j | 0 <= j < |records[1..]|
        ensures !RecordFor(records[1..][j], name)
      {
        assert records[1..][j] == records[j + 1];
      }
      CollectUntouched(next, records[1..], deps, name);
    } else {
      assert LastRecordFor(records[1..], name, i - 1) by {
        forall j | i - 1 < j < |records[1..]|
          ensures !RecordFor(records[1..][j], name)
        {
          assert records[1..][j] == records[j + 1];
        }
      }
      CollectLastWins(next, records[1..], deps, name, i - 1);
    }
  }

  /** A name is resolved exactly when it is a dependency and some table record in
      the `package` array carries it: records naming anything else are dropped. */
  lemma GetPackagesKeys(records: seq<Value>, deps: set<string>, name: string)
    ensures name in GetPackages(records, deps)
            <==> name in deps && exists i :: 0 <= i < |records| && RecordFor(records[i], name)
  {
    CollectKeys(map[], records, deps, name);
  }

  /** When several records carry the same dependency, the last one's version wins. */
  lemma GetPackagesLastWins(records: seq<Value>, deps: set<string>, name: string, i: int)
    requires name in deps
    requires LastRecordFor(records, name, i)
    ensures name in GetPackages(records, deps)
    ensures GetPackages(records, deps)[name] == VersionOf(records[i])
  {
    CollectLastWins(map[], records, deps, name, i);
  }

  /** The lockfile's `package` array is present. */
  predicate HasPackageArray(lock: Value)
  {
    lock.Table? && "package" in lock.entries && lock.entries["package"].Array?
  }

  /** A name is resolved from manifest and lockfile exactly when the manifest
      declares it and some table record of the lockfile's `package` array carries it. */
  lemma GetDependenciesKeys(manifest: Value, lock: Value, name: string)
    ensures name in GetDependencies(manifest, lock)
            <==> && name in TomlDependencies(manifest)
                 && HasPackageArray(lock)
                 && exists i :: 0 <= i < |lock.entries["package"].items|
                                && RecordFor(lock.entries["package"].items[i], name)
  {
    if HasPackageArray(lock) {
      GetPackagesKeys(lock.entries["package"].items, TomlDependencies(manifest), name);
    }
  }

  /** A declared name carried by several records of the lockfile resolves to the
      version of the last of them. */
  lemma GetDependenciesLastWins(manifest: Value, lock: Value, name: string, i: int)
    requires name in TomlDependencies(manifest)
    requires HasPackageArray(lock)
    requires LastRecordFor(lock.entries["package"].items, name, i)
    ensures name in GetDependencies(manifest, lock)
    ensures GetDependencies(manifest, lock)[name] == VersionOf(lock.entries["package"].items[i])
  {
    GetPackagesLastWins(lock.entries["package"].items, TomlDependencies(manifest), name, i);
  }

  /** Which names get resolved does not depend on the order of the records. */
  lemma GetPackagesKeysOrderFree(records: seq<Value>, shuffled: seq<Value>, deps: set<string>)
    requires multiset(records) == multiset(shuffled)
    ensures GetPackages(records, deps).Keys == GetPackages(shuffled, deps).Keys
  {
    forall name | name in GetPackages(records, deps)
      ensures name in GetPackages(shuffled, deps)
    {
      GetPackagesKeys(records, deps, name);
      var i :| 0 <= i < |records| && RecordFor(records[i], name);
      assert records[i] in multiset(shuffled);
      var j :| 0 <= j < |shuffled| && shuffled[j] == records[i];
      GetPackagesKeys(shuffled, deps, name);
    }
    forall name | name in GetPackages(shuffled, deps)
      ensures name in GetPackages(records, deps)
    {
      GetPackagesKeys(shuffled, deps, name);
      var j :| 0 <= j < |shuffled| && RecordFor(shuffled[j], name);
      assert shuffled[j] in multiset(records);
      var i :| 0 <= i < |records| && records[i] == shuffled[j];
      GetPackagesKeys(records, deps, name);
    }
  }

  /** Collecting a concatenation is collecting the second part on top of the first. */
  lemma {:induction false} CollectAppend(acc: Packages, front: seq<Value>, back: seq<Value>, deps: set<string>)
    ensures Collect(acc, front + back, deps) == Collect(Collect(acc, front, deps), back, deps)
    decreases |front|
  {
    if |front| > 0 {
      assert (front + back)[0] == front[0];
      assert (front + back)[1..] == front[1..] + back;
      CollectAppend(Insert(acc, front[0], deps), front[1..], back, deps);
    } else {
      assert front + back == back;
    }
  }

  /** An element of the `package` array that is not a table contributes nothing,
      wherever it stands. */
  lemma NonTableRecordSkipped(front: seq<Value>, record: Value, back: seq<Value>, deps: set<string>)
    requires !record.Table?
    ensures GetPackages(front + [record] + back, deps) == GetPackages(front + back, deps)
  {
    CollectAppend(map[], front + [record], back, deps);
    CollectAppend(map[], front, [record], deps);
    CollectAppend(map[], front, back, deps);
  }

  /** A table record with no usable `name` or `version` field is not an error and
      does not stop the scan: the missing field reads as "", so at any position it
      resolves the dependency named "" when there is one, with an empty version
      when that field is missing too, and the records after it are still read. */
  lemma MissingFieldsReadEmpty(front: seq<Value>, fields: map<string, Value>, back: seq<Value>, deps: set<string>)
    requires "name" !in fields || !fields["name"].Str?
    requires "version" !in fields || !fields["version"].Str?
    ensures GetPackages([Table(fields)], deps) == if "" in deps then map["" := ""] else map[]
    ensures var before := GetPackages(front, deps);
            GetPackages(front + [Table(fields)] + back, deps)
            == Collect(if "" in deps then before["" := ""] else before, back, deps)
  {
    var record := Table(fields);
    assert NameOf(record) == "" && VersionOf(record) == "";
    assert [record][1..] == [];
    assert Collect(map[], [record], deps) == Collect(Insert(map[], record, deps), [], deps);
    CollectAppend(map[], front + [record], back, deps);
    CollectAppend(map[], front, [record], deps);
    var before := GetPackages(front, deps);
    assert Collect(before, [record], deps) == Collect(Insert(before, record, deps), [], deps);
  }

  /** An empty top-level `dependencies` table is still present, so it takes
      precedence: the workspace's declarations are not consulted. */
  lemma EmptyTopLevelTableHidesWorkspace(workspaceDeps: map<string, Value>)
    ensures TomlDependencies(Table(map[
              "dependencies" := Table(map[]),
              "workspace" := Table(map["dependencies" := Table(workspaceDeps)])])) == {}
  {
  }

  /** A lockfile record with a name and a version. */
  function Record(name: string, version: string): Value
  {
    Table(map["name" := Str(name), "version" := Str(version)])
  }

  /** Two declared dependencies, three locked packages: the undeclared one is dropped. */
  lemma ResolvesDeclaredDependencies()
    ensures GetDependencies(
              Table(map["dependencies" := Table(map["foo" := Str("1.0"), "bar" := Str("2.0")])]),
              Table(map["package" := Array([Record("foo", "1.0.0"), Record("bar", "2.0.0"), Record("baz", "9.9.9")])]))
            == map["foo" := "1.0.0", "bar" := "2.0.0"]
  {
    var deps := {"foo", "bar"};
    var records := [Record("foo", "1.0.0"), Record("bar", "2.0.0"), Record("baz", "9.9.9")];
    assert NameOf(Record("foo", "1.0.0")) == "foo" && VersionOf(Record("foo", "1.0.0")) == "1.0.0";
    assert NameOf(Record("bar", "2.0.0")) == "bar" && VersionOf(Record("bar", "2.0.0")) == "2.0.0";
    assert NameOf(Record("baz", "9.9.9")) == "baz";
    assert Insert(map[], records[0], deps) == map["foo" := "1.0.0"];
    assert Insert(map["foo" := "1.0.0"], records[1], deps) == map["foo" := "1.0.0", "bar" := "2.0.0"];
    assert Insert(map["foo" := "1.0.0", "bar" := "2.0.0"], records[2], deps) == map["foo" := "1.0.0", "bar" := "2.0.0"];
    assert records[1..][1..][1..] == [];
    assert GetPackages(records, deps) == map["foo" := "1.0.0", "bar" := "2.0.0"];
  }
}

=== FILE: scenarios.dfy ===
/** Concrete runs over a small workspace: a manifest declaring `foo` and `bar`,
    and a lockfile that also pins the transitive package `baz`. */
module Scenarios {
  import opened Wrappers
  import opened Toml
  import Package
  import opened Command
  import opened Options
  import opened Driver

  const Manifest: Value :=
    Table(map["dependencies" := Table(map["foo" := Str("1.0"), "bar" := Str("2.0")])])

  const Lock: Value :=
    Table(map["package" := Array([
      Package.Record("foo", "1.0.0"),
      Package.Record("bar", "2.0.0"),
      Package.Record("baz", "9.9.9")])])

  const FooArgs: seq<string> := ["build", "-p", "foo:1.0.0", "--profile", "dev"]
  const BarArgs: seq<string> := ["build", "-p", "bar:2.0.0", "--profile", "dev"]

  function Plain(exclude: seq<string>, ignoreErrors: bool): Flags
  {
    Flags(false, None, None, ignoreErrors, exclude)
  }

  /** The first build of a walk over two entries. */
  lemma FirstOfTwo(a: seq<string>, b: seq<string>)
    ensures [a, b][..1] == [a]
  {
  }

  /** Both builds of a walk over two entries. */
  lemma BothOfTwo(a: seq<string>, b: seq<string>)
    ensures [a, b][..2] == [a, b]
  {
  }

  /** The first build of a walk over one entry. */
  lemma FirstOfOne(a: seq<string>)
    ensures [a][..1] == [a]
  {
  }

  /** Every build succeeds. */
  function AllSucceed(args: seq<string>): Launch
  {
    Launched(Unbuilt)
  }

  /** `foo` fails with exit code 101; every other build succeeds. */
  function FooFails(args: seq<string>): Launch
  {
    if args == FooArgs then Launched(Exited(101)) else Launched(Unbuilt)
  }

  lemma Resolved()
    ensures Package.GetDependencies(Manifest, Lock) == map["foo" := "1.0.0", "bar" := "2.0.0"]
  {
    Package.ResolvesDeclaredDependencies();
  }

  function FooBarPlan(tolerant: bool): Plan
  {
    Plan(map["foo" := "1.0.0", "bar" := "2.0.0"], "dev", "", tolerant)
  }

  lemma PreparesFooBar(tolerant: bool)
    ensures Prepare(Plain([], tolerant), Manifest, Lock) == Success(FooBarPlan(tolerant))
  {
    Resolved();
    assert Exclude(map["foo" := "1.0.0", "bar" := "2.0.0"], []) == Success(map["foo" := "1.0.0", "bar" := "2.0.0"]);
  }

  lemma FooBarEnumerated(tolerant: bool)
    ensures Enumerates(["foo", "bar"], FooBarPlan(tolerant).packages)
  {
  }

  lemma InvokesFooThenBar(tolerant: bool)
    ensures Invocation(FooBarPlan(tolerant), "foo") == FooArgs
    ensures Invocation(FooBarPlan(tolerant), "bar") == BarArgs
    ensures Invocations(FooBarPlan(tolerant), ["foo", "bar"]) == [FooArgs, BarArgs]
  {
    var plan := FooBarPlan(tolerant);
    assert PackageId("foo", "1.0.0") == "foo:1.0.0";
    assert PackageId("bar", "2.0.0") == "bar:2.0.0";
    assert Invocation(plan, "foo") == FooArgs;
    assert Invocation(plan, "bar") == BarArgs;
  }

  /** The report of exit code 101. */
  lemma Reports101()
    ensures Diagnostic(Exited(101)) == Some("Exited with status code: 101")
  {
    assert Decimal.DigitChar(0) == '0' && Decimal.DigitChar(1) == '1';
    assert Decimal.FromNat(1) == "1";
    assert Decimal.FromNat(10) == "10";
    assert Decimal.FromNat(101) == "101";
    assert Decimal.FromInt(101) == "101";
    assert !Exited(101).Succeeded();
    assert Diagnostic(Exited(101)) == Some("Exited with status code: " + Decimal.FromInt(101));
    assert "Exited with status code: " + Decimal.FromInt(101) == "Exited with status code: 101";
  }

  /** Excluding `bar` leaves a plan with `foo` alone, with the default profile. */
  lemma ExcludingBarPlansFooOnly()
    ensures Prepare(Plain(["bar"], false), Manifest, Lock)
            == Success(Plan(map["foo" := "1.0.0"], "dev", "", false))
  {
    Resolved();
    ExcludesBar();
  }

  /** Removing `bar` from the resolved map leaves `foo` alone. */
  lemma ExcludesBar()
    ensures Exclude(map["foo" := "1.0.0", "bar" := "2.0.0"], ["bar"]) == Success(map["foo" := "1.0.0"])
  {
    var packages := map["foo" := "1.0.0", "bar" := "2.0.0"];
    assert ["bar"][1..] == [];
    assert Exclude(packages, ["bar"]) == Exclude(packages - {"bar"}, []);
    assert packages - {"bar"} == map["foo" := "1.0.0"];
  }

  /** The plan of `--exclude bar` holds the one build of `foo:1.0.0`. */
  lemma InvokesFooOnly()
    ensures Invocations(Plan(map["foo" := "1.0.0"], "dev", "", false), ["foo"]) == [FooArgs]
  {
    var plan := Plan(map["foo" := "1.0.0"], "dev", "", false);
    assert PackageId("foo", "1.0.0") == "foo:1.0.0";
    assert Invocation(plan, "foo") == FooArgs;
  }

  /** The loop over the single build of `foo`, when it succeeds. */
  lemma FooOnlyLoop()
    ensures var p := BuildAll([FooArgs], AllSucceed, false, Start);
            && p.attempted == 1
            && p.reports == []
            && Classify(p) == ExitSuccess
  {
    var builds := [FooArgs];
    LoopSucceedsIff(builds, AllSucceed, false);
    BuildAllAttempted(builds, AllSucceed, false, Start);
    BuildAllHalted(builds, AllSucceed, false, Start);
    BuildAllReports(builds, AllSucceed, false, Start);
  }

  /** The walk over the plan of `--exclude bar` when every build succeeds. */
  lemma ExcludingBarTrace()
    ensures OrderFits(Plain(["bar"], false), Manifest, Lock, ["foo"])
    ensures var r := Run(Plain(["bar"], false), Manifest, Lock, ["foo"], AllSucceed);
            && r.attempted == [FooArgs]
            && r.reports == []
            && r.exit == ExitSuccess
  {
    ExcludingBarPlansFooOnly();
    var plan := Plan(map["foo" := "1.0.0"], "dev", "", false);
    assert Enumerates(["foo"], plan.packages);
    InvokesFooOnly();
    RunFollowsPlan(Plain(["bar"], false), Manifest, Lock, ["foo"], AllSucceed);
    FooOnlyLoop();
    FirstOfOne(FooArgs);
  }

  /** ... so the run builds `foo:1.0.0` and nothing else, and succeeds. */
  lemma ExcludingBarBuildsFooOnly()
    ensures OrderFits(Plain(["bar"], false), Manifest, Lock, ["foo"])
    ensures Run(Plain(["bar"], false), Manifest, Lock, ["foo"], AllSucceed)
            == RunResult(ExitSuccess, [FooArgs], [])
  {
    ExcludingBarTrace();
  }

  /** Excluding a name that is not a dependency stops the run before any build. */
  lemma ExcludingUnknownNameBuildsNothing()
    ensures Prepare(Plain(["qux"], false), Manifest, Lock) == Failure(UnknownExclusion("qux"))
    ensures Run(Plain(["qux"], false), Manifest, Lock, [], AllSucceed)
            == RunResult(Panicked(UnknownExclusion("qux")), [], [])
  {
    Resolved();
  }

  /** `--release` together with `--profile` stops the run before any build. */
  lemma ConflictingFlagsBuildNothing()
    ensures Run(Flags(true, Some("custom"), None, false, []), Manifest, Lock, [], AllSucceed)
            == RunResult(Panicked(ConflictingProfileFlags), [], [])
  {
  }

  /** The loop over the two builds stops at `foo` when errors are not tolerated. */
  lemma IntolerantFooBarLoop()
    ensures var p := BuildAll([FooArgs, BarArgs], FooFails, false, Start);
            && p.attempted == 1
            && p.reports == []
            && Classify(p) == Panicked(HaltReason(Launched(Exited(101)), false))
  {
    var builds := [FooArgs, BarArgs];
    assert FooFails(builds[0]) == Launched(Exited(101));
    IntolerantLoopStops(builds, FooFails, 0);
  }

  lemma IntolerantFailureTrace()
    ensures OrderFits(Plain([], false), Manifest, Lock, ["foo", "bar"])
    ensures var r := Run(Plain([], false), Manifest, Lock, ["foo", "bar"], FooFails);
            && r.attempted == [FooArgs]
            && r.reports == []
            && r.exit == Panicked(HaltReason(Launched(Exited(101)), false))
  {
    PreparesFooBar(false);
    InvokesFooThenBar(false);
    FooBarEnumerated(false);
    RunOfPlan(Plain([], false), Manifest, Lock, ["foo", "bar"], FooFails, FooBarPlan(false), [FooArgs, BarArgs]);
    IntolerantFooBarLoop();
    FirstOfTwo(FooArgs, BarArgs);
  }

  /** Without `--ignore-errors`, the failure of `foo` aborts the run: `bar` is never built. */
  lemma IntolerantFailureAborts()
    ensures OrderFits(Plain([], false), Manifest, Lock, ["foo", "bar"])
    ensures Run(Plain([], false), Manifest, Lock, ["foo", "bar"], FooFails)
            == RunResult(Panicked(BuildFailed("Exited with status code: 101")), [FooArgs], [])
  {
    IntolerantFailureTrace();
    Reports101();
  }

  /** The loop over the two builds runs both when errors are tolerated. */
  lemma TolerantFooBarLoop()
    ensures var p := BuildAll([FooArgs, BarArgs], FooFails, true, Start);
            && p.attempted == 2
            && p.reports == Reported([FooArgs, BarArgs], FooFails)
            && Classify(p) == ExitFailure
  {
    var builds := [FooArgs, BarArgs];
    assert FooFails(builds[0]) == Launched(Exited(101));
    assert FooFails(builds[1]) == Launched(Unbuilt);
    TolerantLoopContinues(builds, FooFails);
  }

  lemma TolerantFailureTrace()
    ensures OrderFits(Plain([], true), Manifest, Lock, ["foo", "bar"])
    ensures var r := Run(Plain([], true), Manifest, Lock, ["foo", "bar"], FooFails);
            && r.attempted == [FooArgs, BarArgs]
            && r.reports == Reported([FooArgs, BarArgs], FooFails)
            && r.exit == ExitFailure
  {
    PreparesFooBar(true);
    InvokesFooThenBar(true);
    FooBarEnumerated(true);
    RunOfPlan(Plain([], true), Manifest, Lock, ["foo", "bar"], FooFails, FooBarPlan(true), [FooArgs, BarArgs]);
    TolerantFooBarLoop();
    BothOfTwo(FooArgs, BarArgs);
  }

  /** With `--ignore-errors`, both packages are built, the failure of `foo` is
      reported, and the run still fails. */
  lemma TolerantFailureContinues()
    ensures OrderFits(Plain([], true), Manifest, Lock, ["foo", "bar"])
    ensures Run(Plain([], true), Manifest, Lock, ["foo", "bar"], FooFails)
            == RunResult(ExitFailure, [FooArgs, BarArgs], ["Exited with status code: 101"])
  {
    TolerantFailureTrace();
    FooFailureReported();
  }

  /** Of the two builds, only `foo`'s failure is reported. */
  lemma FooFailureReported()
    ensures Reported([FooArgs, BarArgs], FooFails) == ["Exited with status code: 101"]
  {
    Reports101();
    var builds := [FooArgs, BarArgs];
    assert builds[1..] == [BarArgs];
    assert builds[1..][1..] == [];
    assert FooFails(builds[0]) == Launched(Exited(101));
    assert FooFails(builds[1]) == Launched(Unbuilt);
  }
}

=== FILE: toml.dfy ===
/** The parsed TOML document tree the resolver reads (`toml::Value`). */
module Toml {
  import opened Wrappers

  /** Tables, arrays and strings are the shapes the resolver looks at; every other
      scalar (integer, float, boolean, datetime) is `Other`. */
  datatype Value =
    | Table(entries: map<string, Value>)
    | Array(items: seq<Value>)
    | Str(text: string)
    | Other

  /** `Value::get` with a string key: only a table has keyed entries; on any other
      shape, or for a missing key, there is nothing. */
  function Get(v: Value, key: string): (r: Option<Value>)
    ensures r.Some? <==> v.Table? && key in v.entries
    ensures r.Some? ==> r.value == v.entries[key]
  {
    if v.Table? && key in v.entries then Some(v.entries[key]) else None
  }

  /** `get_string_field`: the text of a string field; a missing field or one of
      any other shape reads as the empty string instead of failing. */
  function StringField(field: Option<Value>): (r: string)
    ensures field.Some? && field.value.Str? ==> r == field.value.text
    ensures r != [] ==> field == Some(Str(r))
  {
    match field
    case Some(Str(text)) => text
    case _ => ""
  }
}

=== FILE: wrappers.dfy ===
/** Optional values and fallible results, used in place of Rust's `Option` and of panics. */
module Wrappers {

  datatype Option<+T> = None | Some(value: T)

  /** A computation that either yields a value or stops with an error. */
  datatype Result<+R, +E> = Success(value: R) | Failure(error: E)
}
